=== FILE: README.md ===
# webtest-plus authentication and redirects, in Dafny

`webtest_plus.TestApp` wraps a WSGI test client. It adds requests-style
authentication and the option to follow redirects. This project models the part of
`webtest_plus/app.py` that decides which headers a request carries and which response
`get` returns:

- **`_basic_auth_str`** builds the `Basic` credential of section 2 of RFC 7617. It joins
  `username:password`, encodes the result as latin-1, applies the padded Base64 of
  section 4 of RFC 4648, strips ASCII whitespace and decodes as latin-1 again.
  - The modules `Octets` and `Base64` model these steps.
  - Base64 is given a strict decoder as its partner. Both halves of the bijection are
    proved, together with the alphabet-and-padding shape of every encoding.
- **`_add_auth`** (module `AuthHeaders`) handles the `basic` branch, which acts only for
  a two-element tuple or list, the `jwt` branch (`Bearer <token>`) and the
  unsupported-type error.
  - Each outcome is stated case by case.
  - The set of failing inputs is given both ways.
  - Only the `Authorization` entry can differ; every other header is kept.
  - A second application changes nothing.
- **The `TestApp` state** (module `TestClient`) covers:
  - the two fields `__init__` adds;
  - `authenticate`, `authenticate_with_token` and `deauthenticate`;
  - `_build_headers`, with its `auth or self.auth` and `auth_type or self.auth_type`
    fallbacks;
  - the headers each request method hands to the superclass. `put` builds them twice,
    and the model proves this equal to a single build.
  - the headers that reach the application. The superclass's `post`, `put`, `patch` and
    `delete` go back through the overridden `_gen_request`, which builds them once more
    without the per-call credential. This is recorded under "Findings" below, both as
    written and corrected.
  - A session (`Run`) runs a sequence of logins, logouts and requests. Its requests use
    the corrected send, so a `post`, `put`, `patch` or `delete` with its own credential on
    a logged-in client yields what the code evidently intends, not what it sends. The proofs show that
    requests never change the stored state. They also show that a per-call credential does
    not persist, for requests that each pass their own header dictionary.
- **The `auto_follow` loop of `get`** (module `Redirects`) keeps following while the
  status is in the 3xx class of section 15.4 of RFC 9110, that is [300, 400). The
  transport is replaced by a finite chain of status codes.

Four behaviours of the code a reader might not expect:

- An empty token is falsy in Python. `authenticate_with_token('')` therefore makes later
  requests without their own credential carry no `Authorization` header at all, not
  `Bearer ` (`EmptyTokenSendsNothing`).
- `deauthenticate` clears only the credential and keeps the auth type. After a token
  login and a logout, a per-call `(username, password)` pair without `auth_type` is sent
  as `Bearer username` (`LogoutKeepsJwtType`).
- `_add_auth` with the `basic` type and anything but a pair adds nothing and raises
  nothing (`AddAuthBasicOtherShape`).
- An unsupported `auth_type` raises only when there is a credential to add. On a fresh
  client `get(url, auth_type='digest')` skips `_add_auth` (lines 66-67) and sends the
  headers unchanged (`UnsupportedTypeRequest`).

Python's exceptions are values of `Outcomes.Error`:

| exception | raised for |
|---|---|
| `UnsupportedAuthType` | the `ValueError` for an unknown type |
| `UnicodeEncodeError` | a credential beyond U+00FF |
| `IndexError` | `auth[0]` of an empty sequence |
| `TypeError` | joining `None` into the bearer header |

## Model

| member | source | states |
|---|---|---|
| Octets.Latin1Encode | webtest_plus/app.py:13 | `.encode('latin1')` succeeds exactly when every character is at most U+00FF, and then gives one byte per character with that character's code |
| Octets.Latin1Decode | webtest_plus/app.py:13 | `.decode('latin1')` is total and gives one character per byte with the byte's value as its code |
| Octets.Latin1DecodeEncode | webtest_plus/app.py:13 | encoding the latin-1 decoding of any bytes gives the same bytes back |
| Octets.Latin1EncodeDecode | webtest_plus/app.py:13 | decoding the latin-1 encoding of a latin-1 string gives the same string back |
| Octets.Strip | webtest_plus/app.py:13 | `.strip()` returns the input with a leading and a trailing run of ASCII whitespace removed and nothing else, leaves no whitespace at either end, and is the identity on input without whitespace |
| Octets.StripUnique | webtest_plus/app.py:13 | any infix obtained by removing whitespace runs at both ends that itself neither starts nor ends with whitespace is the result of `.strip()` |
| Base64.Encode | webtest_plus/app.py:13 | `b64encode` of n bytes has 4 * ceil(n / 3) characters |
| Base64.DecodeEncode | webtest_plus/app.py:13 | the strict decoder returns exactly the bytes whose encoding it is given |
| Base64.EncodeDecode | webtest_plus/app.py:13 | every text the decoder accepts is the encoding of what it returns, so the encoder is a bijection onto the accepted texts |
| Base64.EncodeSymsShape | webtest_plus/app.py:13 | an encoding consists of digits followed by exactly (3 - n mod 3) mod 3 padding marks |
| Base64.EncodeAlphabet | webtest_plus/app.py:13 | every byte of an encoding is an alphabet symbol except the trailing padding, which is `=` and as long as the padding count says |
| Base64.EncodeHasNoSpace | webtest_plus/app.py:13 | an encoding contains no ASCII whitespace, so the `.strip()` after `b64encode` removes nothing |
| Base64.RfcVectors | webtest_plus/app.py:13 | "f", "fo" and "foo" encode to "Zg==", "Zm8=" and "Zm9v", the test vectors of RFC 4648 |
| BasicAuth.BasicAuthStr | webtest_plus/app.py:11-13 | fails with `UnicodeEncodeError` exactly when `user:password` is not latin-1; otherwise it starts with `Basic ` and has the length of the scheme plus the Base64 text of the joined credential |
| BasicAuth.BasicAuthStrText | webtest_plus/app.py:13 | for a latin-1 credential the value is `Basic ` followed by the Base64 text itself, the `.strip()` in between removing nothing |
| BasicAuth.BasicAuthRoundTrip | webtest_plus/app.py:11-13 | a server that parses the `Basic` value reads back exactly `username:password` |
| BasicAuth.BasicAuthAlphabet | webtest_plus/app.py:11-13 | after `Basic ` come only alphabet characters and then as many `=` as the joined credential's length requires |
| BasicAuth.SplitAtColon | webtest_plus/app.py:13 | splitting at the first colon gives a colon-free user part that rejoins to the input, and fails exactly when there is no colon |
| BasicAuth.SplitJoined | webtest_plus/app.py:13 | a colon-free user-id and any password are recovered from the joined credential |
| BasicAuth.BasicAuthCredentials | webtest_plus/app.py:11-13 | a server that parses the `Basic` value and splits it at the first colon gets back the user-id and the password, when the user-id has no colon |
| AuthHeaders.Normalize | webtest_plus/app.py:23 | `headers or {}` turns a missing dictionary into an empty one and keeps a given one |
| AuthHeaders.JwtToken | webtest_plus/app.py:32 | a token exists exactly for a string or a non-empty tuple or list |
| AuthHeaders.AuthValue | webtest_plus/app.py:24-35 | an unknown type raises the unsupported-type error; no header is computed exactly for `basic` with a non-pair |
| AuthHeaders.AddAuth | webtest_plus/app.py:16-36 | every header other than `Authorization` is kept; an unknown auth type raises `ValueError` |
| AuthHeaders.AddAuthBasicPair | webtest_plus/app.py:24-30 | `basic` with a latin-1 pair sets an `Authorization` value that parses back to `username:password` |
| AuthHeaders.AddAuthBasicNotLatin1 | webtest_plus/app.py:25-29 | `basic` with a pair that is not latin-1 raises `UnicodeEncodeError` |
| AuthHeaders.AddAuthBasicOtherShape | webtest_plus/app.py:23-36 | `basic` with anything but a pair returns the normalised headers unchanged and adds no `Authorization` |
| AuthHeaders.AddAuthJwt | webtest_plus/app.py:31-33 | `jwt` sets `Bearer <auth>` for a string and `Bearer <auth[0]>` for a sequence; an empty sequence raises `IndexError` and `None` raises `TypeError` |
| AuthHeaders.AddAuthFails | webtest_plus/app.py:16-36 | `_add_auth` raises exactly for an unknown type, a non-latin-1 `basic` pair, or a `jwt` credential without a token |
| AuthHeaders.AddAuthOverwrites | webtest_plus/app.py:30-33 | whenever a header is computed, whatever `Authorization` value the caller supplied is overwritten |
| AuthHeaders.AddAuthIdempotent | webtest_plus/app.py:16-36 | applying `_add_auth` to its own result changes nothing |
| TestClient.New | webtest_plus/app.py:58-61 | a fresh client has no credential of its own: the effective credential is truthy exactly when the request passes a truthy one, and the effective type of a request without its own is `basic` |
| TestClient.Authenticate | webtest_plus/app.py:70-73 | afterwards every request without its own credential uses `(username, password)`, and without its own type uses `basic`, whatever was stored before |
| TestClient.AuthenticateWithToken | webtest_plus/app.py:75-78 | afterwards every request without its own credential uses the token, and without its own type uses `jwt`, whatever was stored before |
| TestClient.Deauthenticate | webtest_plus/app.py:80-82 | afterwards only a per-call credential adds a header; the effective auth type is unchanged for every request |
| TestClient.EffectiveAuth | webtest_plus/app.py:64 | `auth or self.auth` is the per-call credential when truthy and the stored one otherwise, so it is truthy exactly when one of them is |
| TestClient.EffectiveType | webtest_plus/app.py:65 | `auth_type or self.auth_type` is the per-call type unless it is `None` or `''`, and is empty exactly when both are |
| TestClient.BuildHeaders | webtest_plus/app.py:63-68 | a falsy effective credential hands the headers back untouched; otherwise only `Authorization` may differ from the normalised headers |
| TestClient.PerCallAuthOverrides | webtest_plus/app.py:64 | a truthy per-call credential makes the stored one irrelevant |
| TestClient.StoredAuthFallback | webtest_plus/app.py:64 | a falsy per-call credential behaves as the stored one |
| TestClient.PerCallTypeOverrides | webtest_plus/app.py:65 | a non-empty per-call type makes the stored type irrelevant; `None` and `''` both fall back to it |
| TestClient.BuildHeadersIdempotent | webtest_plus/app.py:63-68 | building the headers from already-built headers changes nothing |
| TestClient.PassedHeadersSingleBuild | webtest_plus/app.py:84-147 | every request method hands the superclass the headers of one build, `put` with its double build at lines 111-113 included |
| TestClient.SentHeaders | webtest_plus/app.py:84-165 | with the last build in `_gen_request` given the request's own `auth` and `auth_type`, every request method sends the headers of one build |
| TestClient.SentPerCallAuthWins | webtest_plus/app.py:64 | with that correction a truthy per-call credential wins for every request method, whatever is stored |
| TestClient.SentPerCallTypeWins | webtest_plus/app.py:65 | with that correction a non-empty per-call auth type wins for every request method, whatever type is stored |
| TestClient.SentPerCallPair | webtest_plus/app.py:64-66 | with that correction a per-call latin-1 pair under `basic` is the credential sent, for every request method |
| TestClient.AsWrittenStoredCredentialWins | webtest_plus/app.py:149-165 | as written, after `authenticate(u, p)` the headers `post`, `put`, `patch` and `delete` send parse to `u:p`, whatever credential or type the request passes |
| TestClient.AsWrittenAgrees | webtest_plus/app.py:149-165 | the code as written and the correction send the same headers when no credential is stored, or when the request passes no credential and no type other than the stored one |
| TestClient.AsWrittenIgnoresPerCallPair | webtest_plus/app.py:149-165 | after logging in as `u:p`, a `post`, `put`, `patch` or `delete` with the pair `u2:p2` sends `u:p` as written and `u2:p2` once corrected |
| TestClient.AsWrittenPostIgnoresPerCallAuth | webtest_plus/app.py:149-165 | after logging in as `admin:secret`, `post` with `auth=('no', 'go')` sends `admin:secret` as written and `no:go` once corrected |
| TestClient.UnsupportedTypeRequest | webtest_plus/app.py:34-35 | as written, for every request method, an effective auth type other than `basic` or `jwt` raises `ValueError` exactly when the effective credential is truthy; otherwise the headers go out unchanged, since lines 66-67 skip `_add_auth` |
| TestClient.NewClientSendsNoAuthorization | webtest_plus/app.py:58-61 | a fresh client adds no header unless a request passes its own credential |
| TestClient.AuthenticatedRequest | webtest_plus/app.py:70-73 | after `authenticate(u, p)` every request without its own credential or auth type carries a `Basic` header that parses to `u:p` with the rest of the headers kept, or raises `UnicodeEncodeError` when `u:p` is not latin-1 |
| TestClient.TokenRequest | webtest_plus/app.py:75-78 | after `authenticate_with_token(t)` with a non-empty `t`, every request without its own credential or auth type carries `Bearer t` |
| TestClient.EmptyTokenSendsNothing | webtest_plus/app.py:75-78 | after `authenticate_with_token('')` requests without their own credential carry the headers exactly as given |
| TestClient.DeauthenticatedRequest | webtest_plus/app.py:80-82 | after `deauthenticate()` requests without their own credential carry the headers exactly as given |
| TestClient.LogoutKeepsJwtType | webtest_plus/app.py:80-82 | `deauthenticate` keeps the `jwt` type, so a later per-call pair is sent as a bearer token |
| TestClient.RequestsDoNotChangeState | webtest_plus/app.py:63-68 | the client after a session equals the client after its logins and logouts alone |
| TestClient.Run | webtest_plus/app.py:70-165 | a session yields exactly one outcome per request it contains; `RunLastSend` states what each one is |
| TestClient.RunStep | webtest_plus/app.py:70-82 | a session is its first step followed by the rest, run from the client that step leaves; only a request adds an outcome |
| TestClient.RunAppend | webtest_plus/app.py:70-82 | a session split at any point runs its second part from the client its first part leaves, and the outcomes of the two parts follow each other |
| TestClient.RunLastSend | webtest_plus/app.py:63-68 | a session's last request leaves the client alone, and its outcome is the corrected send from the client the steps before it leave |
| TestClient.PerCallAuthDoesNotPersist | webtest_plus/app.py:64 | a request, whatever credential it passes, changes neither the final state nor the headers of later requests, for requests that each pass their own header dictionary |
| TestClient.LoginThenLogout | webtest_plus/app.py:70-82 | in a login, request, logout, request session the first request is sent from the logged-in client and the second from the logged-out one |
| TestClient.LoginRequestLogoutSession | webtest_plus/app.py:63-82 | logging in as `u:p` and requesting sends a header that parses to `u:p`; after logging out the next request sends no headers |
| TestClient.AuthorizeSession | tests/test_webtest_plus.py:37-43 | logging in as `admin:secret` and requesting sends a header that parses to `admin:secret`; after logging out the next request sends no headers |
| Redirects.IsRedirect | webtest_plus/app.py:92 | a status is a redirect exactly when `status // 100` is 3 |
| Redirects.FirstNonRedirect | webtest_plus/app.py:92-94 | the index found is the first at or after the start whose status is not 3xx, and no index means every remaining status is 3xx |
| Redirects.Get | webtest_plus/app.py:84-95 | without `auto_follow` the first response is returned; with it, the first non-3xx response, every earlier one being 3xx, as the reference definition names it |
| Redirects.AutoFollowThreeHops | tests/test_webtest_plus.py:33-35 | following 302, 302, 200 ends at the third response |

## Left out

- The superclass `webtest.TestApp` and the WSGI application behind it are not part of this
  model. This covers URLs, parameters, bodies, `status` and `expect_errors` checks, and the
  `TestRequest` and `TestResponse` classes. A request is modelled only by its headers.
  That webtest's `post`, `put`, `patch` and `delete` call `self._gen_request` without
  `auth` or `auth_type`, while `get` and `options` do not, is taken from webtest itself
  (`TestClient.Regenerates`).
- `response.follow()` is not modelled. What it would return is given as a chain of status
  codes. A chain that ends while the loop still wants to follow stands for a transport
  error, and also for a redirect cycle that never ends.
- The `post_json`, `put_json`, `patch_json` and `delete_json` helpers
  (`utils.json_method`) serialise a body with JSON and pass through `_gen_request`. Only
  their headers are modelled, as the `Generic` verb.
- The Python 2 branch that wraps the credential in `binary_type` is left out; the model
  follows Python 3.
- Credentials that are not strings are left out: `'%s'` would format them with `str()`.
  Tuple and list elements are strings, and `Auth` has no case for other objects.
- `_add_auth` mutates the caller's dictionary in place when it is non-empty, so a caller
  that passes a non-empty dictionary sees the added header. For `None` or `{}`, which are
  falsy, `headers or {}` makes a fresh dictionary and the caller's stays as it was. The model is pure and returns the new dictionary instead. Aliasing between the
  caller's dictionary and the one sent is not modelled.
- TestClient.Run: a session's requests use the corrected `SentHeaders`, not
  `SentHeadersAsWritten`. For a `post`, `put`, `patch` or `delete` that passes its own
  credential or type to a client with a stored credential, the session's outcome is
  therefore not what the code sends (see "Findings"). `get`, `options` and the JSON
  helpers send the same either way, and so do the requests `TestClient.AsWrittenAgrees`
  covers.
- TestClient.PerCallAuthDoesNotPersist: holds only for requests that each pass their own
  header dictionary. `headers or {}` keeps the caller's non-empty dictionary (line 23), and
  lines 30 and 33 write `Authorization` into it. A caller that reuses one dictionary
  therefore sends a per-call credential again on a later request.
- AuthHeaders.AddAuth: the `ValueError` message text is not modelled. The error carries
  only the rejected auth type.
- Base64.Decode, BasicAuth.ParseBasic, BasicAuth.SplitAtColon and BasicAuth.SplitJoined
  model a server reading the header, not code in this repository. The decoder is strict: it rejects non-zero padding bits. Python's
  lenient `b64decode` is not modelled.
- The Flask application of the test suite and its status codes are not modelled. Only the
  headers of `test_authorize` and the redirect chain of `test_auto_follow` are.

## Findings

| source | as written | input that shows it | evidently intended | confidence | as-written member | corrected member |
|---|---|---|---|---|---|---|
| webtest_plus/app.py:149-165 | webtest's `post`, `put`, `patch` and `delete` reach the overridden `_gen_request`. It builds the headers again with `auth` and `auth_type` left at `None`, so the stored credential and type replace the per-call ones | `authenticate('admin', 'secret')`, then `post(url, auth=('no', 'go'))`, sends `admin:secret` | a truthy per-call credential and a non-empty per-call type win, as `auth or self.auth` at line 64 says, for every request method | medium, not executed; it rests on webtest's routing through `_gen_request` | TestClient.AsWrittenPostIgnoresPerCallAuth | TestClient.SentPerCallAuthWins |

=== FILE: auth_headers.dfy ===
/** `_add_auth`: put an `Authorization` header, built from a credential, into a header
    dictionary. */
module AuthHeaders {
  import opened Outcomes
  import opened Octets
  import opened BasicAuth

  /** The `auth` argument as callers pass it: `None`, a bare string (a token), or a tuple
      or list of strings (a `(username, password)` pair, or a one-element token list).
      Tuples and lists behave alike everywhere, so one case stands for both. */
  datatype Auth = NoAuth | Token(text: string) | Items(elems: seq<string>)

  /** Python truthiness of an `auth` value: `None`, `''`, `()` and `[]` are false. */
  predicate Truthy(a: Auth) {
    match a
    case NoAuth => false
    case Token(t) => |t| > 0
    case Items(e) => |e| > 0
  }

  /** Whether `auth` is a tuple or list of length 2, the only shape the `basic` branch uses. */
  predicate IsPair(a: Auth) {
    a.Items? && |a.elems| == 2
  }

  /** A header dictionary. Keys are compared exactly, as in a Python `dict`. */
  type Headers = map<string, string>

  const AuthorizationKey: string := "Authorization"
  const BasicType: string := "basic"
  const JwtType: string := "jwt"

  /** The bearer scheme of section 2.1 of RFC 6750, with the space that follows it. */
  const BearerPrefix: string := "Bearer "

  /** `a` and `b` hold the same keys with the same values, except perhaps `Authorization`. */
  ghost predicate SameExceptAuthorization(a: Headers, b: Headers) {
    forall k :: k != AuthorizationKey ==> (k in a <==> k in b) && (k in a ==> a[k] == b[k])
  }

  /** `headers or {}`: a missing dictionary becomes an empty one. */
  function Normalize(headers: Option<Headers>): (h: Headers)
    ensures headers.Some? ==> h == headers.value
    ensures headers.None? ==> h == map[]
  {
    match headers
    case None => map[]
    case Some(m) => m
  }

  /** The token the `jwt` branch sends: `auth[0]` for a tuple or list, `auth` itself
      otherwise; `auth[0]` of an empty sequence raises `IndexError`, and joining `None`
      into the header raises `TypeError`. */
  function JwtToken(auth: Auth): (r: Result<string, Error>)
    ensures r.Ok? <==> auth.Token? || (auth.Items? && |auth.elems| > 0)
  {
    match auth
    case NoAuth => Err(TypeError)
    case Token(t) => Ok(t)
    case Items(e) => if |e| == 0 then Err(IndexError) else Ok(e[0])
  }

  /** The `Authorization` value `_add_auth` computes: `None` when the `basic` branch
      meets a credential that is not a pair and adds nothing. */
  function AuthValue(auth: Auth, authType: string): (r: Result<Option<string>, Error>)
    ensures authType != BasicType && authType != JwtType ==> r == Err(UnsupportedAuthType(authType))
    ensures r == Ok(None) <==> authType == BasicType && !IsPair(auth)
  {
    if authType == BasicType then
      if IsPair(auth) then
        match BasicAuthStr(auth.elems[0], auth.elems[1])
        case Err(e) => Err(e)
        case Ok(value) => Ok(Some(value))
      else Ok(None)
    else if authType == JwtType then
      match JwtToken(auth)
      case Err(e) => Err(e)
      case Ok(token) => Ok(Some(BearerPrefix + token))
    else Err(UnsupportedAuthType(authType))
  }

  /** `_add_auth(auth, headers, auth_type)`. Only the `Authorization` key can change;
      every other entry of the (normalised) dictionary is kept as it was. */
  function AddAuth(auth: Auth, headers: Option<Headers>, authType: string): (r: Result<Headers, Error>)
    ensures r.Ok? ==> SameExceptAuthorization(r.value, Normalize(headers))
    ensures authType != BasicType && authType != JwtType ==> r == Err(UnsupportedAuthType(authType))
  {
    var h := Normalize(headers);
    match AuthValue(auth, authType)
    case Err(e) => Err(e)
    case Ok(None) => Ok(h)
    case Ok(Some(value)) => Ok(h[AuthorizationKey := value])
  }

  /** `basic` with a pair whose joined text is latin-1: the header is set, and a server
      reads back exactly `username:password` from it. */
  lemma AddAuthBasicPair(auth: Auth, headers: Option<Headers>)
    requires IsPair(auth) && IsLatin1(auth.elems[0] + ":" + auth.elems[1])
    ensures var r := AddAuth(auth, headers, BasicType);
      && r.Ok? && AuthorizationKey in r.value
      && ParseBasic(r.value[AuthorizationKey]) == Some(auth.elems[0] + ":" + auth.elems[1])
  {
    BasicAuthRoundTrip(auth.elems[0], auth.elems[1]);
  }

  /** `basic` with a pair that is not latin-1: `UnicodeEncodeError`, no headers. */
  lemma AddAuthBasicNotLatin1(auth: Auth, headers: Option<Headers>)
    requires IsPair(auth) && !IsLatin1(auth.elems[0] + ":" + auth.elems[1])
    ensures AddAuth(auth, headers, BasicType) == Err(UnicodeEncodeError)
  {
  }

  /** `basic` with anything but a pair (a bare token, `None`, a list of another length):
      a silent no-op apart from turning `None` into `{}`. */
  lemma AddAuthBasicOtherShape(auth: Auth, headers: Option<Headers>)
    requires !IsPair(auth)
    ensures AddAuth(auth, headers, BasicType) == Ok(Normalize(headers))
    ensures AuthorizationKey !in Normalize(headers) ==>
      AuthorizationKey !in AddAuth(auth, headers, BasicType).value
  {
  }

  /** `jwt`: the header is `BearerPrefix + token`, with the token `auth[0]` for a tuple or
      list and `auth` otherwise; `None` and an empty sequence raise. */
  lemma AddAuthJwt(auth: Auth, headers: Option<Headers>)
    ensures auth.Token? ==>
      AddAuth(auth, headers, JwtType) == Ok(Normalize(headers)[AuthorizationKey := BearerPrefix + auth.text])
    ensures auth.Items? && |auth.elems| > 0 ==>
      AddAuth(auth, headers, JwtType) == Ok(Normalize(headers)[AuthorizationKey := BearerPrefix + auth.elems[0]])
    ensures auth.Items? && |auth.elems| == 0 ==> AddAuth(auth, headers, JwtType) == Err(IndexError)
    ensures auth.NoAuth? ==> AddAuth(auth, headers, JwtType) == Err(TypeError)
  {
  }

  /** The error cases, both ways: `_add_auth` raises exactly for an unsupported type, a
      non-latin-1 `basic` pair, or a `jwt` credential without a token. */
  lemma AddAuthFails(auth: Auth, headers: Option<Headers>, authType: string)
    ensures AddAuth(auth, headers, authType).Err? <==>
      || (authType != BasicType && authType != JwtType)
      || (authType == BasicType && IsPair(auth) && !IsLatin1(auth.elems[0] + ":" + auth.elems[1]))
      || (authType == JwtType && JwtToken(auth).Err?)
  {
  }

  /** Whenever a header is computed (`basic` with a pair, or `jwt`), an `Authorization`
      value the caller supplied makes no difference: the computed value is applied last. */
  lemma AddAuthOverwrites(auth: Auth, headers: Option<Headers>, authType: string, other: Headers)
    requires (authType == BasicType && IsPair(auth)) || authType == JwtType
    requires SameExceptAuthorization(other, Normalize(headers))
    ensures AddAuth(auth, Some(other), authType) == AddAuth(auth, headers, authType)
  {
    var v := AuthValue(auth, authType);
    if v.Ok? {
      SetAuthorizationAgrees(other, Normalize(headers), v.value.value);
    }
  }

  /** Two dictionaries that differ at most in `Authorization` agree once it is set. */
  lemma SetAuthorizationAgrees(a: Headers, b: Headers, value: string)
    requires SameExceptAuthorization(a, b)
    ensures a[AuthorizationKey := value] == b[AuthorizationKey := value]
  {
    var l := a[AuthorizationKey := value];
    var r := b[AuthorizationKey := value];
    assert l.Keys == r.Keys;
    assert forall k | k in l :: l[k] == r[k];
  }

  /** Applying `_add_auth` to its own result changes nothing: the idempotence that
      `put`'s second header build relies on. */
  lemma AddAuthIdempotent(auth: Auth, headers: Option<Headers>, authType: string)
    requires AddAuth(auth, headers, authType).Ok?
    ensures AddAuth(auth, Some(AddAuth(auth, headers, authType).value), authType)
         == AddAuth(auth, headers, authType)
  {
    var h := Normalize(headers);
    var v := AuthValue(auth, authType);
    if v.value.Some? {
      var x := v.value.value;
      assert h[AuthorizationKey := x][AuthorizationKey := x] == h[AuthorizationKey := x];
    }
  }
}

=== FILE: base64.dfy ===
/** The padded Base64 encoding of section 4 of RFC 4648 (standard alphabet, `=` padding),
    as `base64.b64encode` produces it, with a strict decoder as its partner.

    The encoding is built in two layers: bytes become a sequence of 6-bit digits and
    padding marks (`Sym`), and each of those is then spelled as one ASCII byte, since
    `b64encode` returns a byte string. Each layer has its own inverse. */
module Base64 {
  import opened Outcomes
  import opened Octets

  type sextet = x: int | 0 <= x < 64

  /** One character of an encoding before it is spelled out: a 6-bit digit or `=`. */
  datatype Sym = Digit(value: sextet) | Padding

  /* ---------------- Bytes and 6-bit groups ---------------- */

  /** The four 6-bit groups of three bytes (24 bits, high bits first). */
  function Split(a: byte, b: byte, c: byte): (v: seq<sextet>)
    ensures |v| == 4
  {
    [a / 4, (a % 4) * 16 + b / 16, (b % 16) * 4 + c / 64, c % 64]
  }

  /** Four 6-bit groups joined back into three bytes. */
  function Join(v0: sextet, v1: sextet, v2: sextet, v3: sextet): (d: seq<byte>)
    ensures |d| == 3
  {
    [v0 * 4 + v1 / 16, (v1 % 16) * 16 + v2 / 4, (v2 % 4) * 64 + v3]
  }

  /** Division by a power of two, characterised by quotient and remainder. */
  lemma DivMod(x: int, n: int, q: int, r: int)
    requires n == 4 || n == 16 || n == 64
    requires x == n * q + r && 0 <= r < n
    ensures x / n == q && x % n == r
  {
  }

  /** Joining the groups of three bytes gives the bytes back. */
  lemma JoinSplit(a: byte, b: byte, c: byte)
    ensures var v := Split(a, b, c); Join(v[0], v[1], v[2], v[3]) == [a, b, c]
  {
    DivMod((a % 4) * 16 + b / 16, 16, a % 4, b / 16);
    DivMod((b % 16) * 4 + c / 64, 4, b % 16, c / 64);
  }

  /** Splitting the bytes that four groups join to gives the groups back. */
  lemma SplitJoin(v0: sextet, v1: sextet, v2: sextet, v3: sextet)
    ensures var d := Join(v0, v1, v2, v3); Split(d[0], d[1], d[2]) == [v0, v1, v2, v3]
  {
    var d := Join(v0, v1, v2, v3);
    DivMod(d[0], 4, v0, v1 / 16);
    DivMod(d[1], 16, v1 % 16, v2 / 4);
    DivMod(d[2], 64, v2 % 4, v3);
    assert (v1 / 16) * 16 + v1 % 16 == v1;
    assert (v2 % 4) + (v2 / 4) * 4 == v2;
  }

  /* ---------------- Bytes and digit sequences ---------------- */

  /** Three bytes as four digits. */
  function Quantum(a: byte, b: byte, c: byte): seq<Sym> {
    var v := Split(a, b, c);
    [Digit(v[0]), Digit(v[1]), Digit(v[2]), Digit(v[3])]
  }

  /** The number of `=` characters that end the encoding of `n` bytes. */
  function PadCount(n: nat): nat {
    (3 - n % 3) % 3
  }

  /** Every three bytes become four digits; a final group of one or two bytes is
      zero-filled, cut to two or three digits, and completed with padding. */
  function EncodeSyms(s: seq<byte>): (u: seq<Sym>)
    ensures |u| == 4 * ((|s| + 2) / 3)
  {
    if |s| == 0 then []
    else if |s| == 1 then
      var v := Split(s[0], 0, 0);
      [Digit(v[0]), Digit(v[1]), Padding, Padding]
    else if |s| == 2 then
      var v := Split(s[0], s[1], 0);
      [Digit(v[0]), Digit(v[1]), Digit(v[2]), Padding]
    else Quantum(s[0], s[1], s[2]) + EncodeSyms(s[3..])
  }

  /** The last quantum: four digits, or three and `=`, or two and `==`. The bits that
      padding leaves over must be zero (section 3.5 of RFC 4648). */
  function DecodeLast(w: Sym, x: Sym, y: Sym, z: Sym): Option<seq<byte>> {
    if !w.Digit? || !x.Digit? then None
    else if y.Digit? && z.Digit? then Some(Join(w.value, x.value, y.value, z.value))
    else if y.Digit? && z.Padding? && y.value % 4 == 0 then
      Some(Join(w.value, x.value, y.value, 0)[..2])
    else if y.Padding? && z.Padding? && x.value % 16 == 0 then
      Some(Join(w.value, x.value, 0, 0)[..1])
    else None
  }

  /** Whether the first four symbols are all digits. */
  predicate FullQuantum(u: seq<Sym>)
    requires |u| >= 4
  {
    u[0].Digit? && u[1].Digit? && u[2].Digit? && u[3].Digit?
  }

  /** The strict inverse of `EncodeSyms`: a whole number of quanta, padding only in
      the last, and leftover bits zero. `None` for anything else. */
  function DecodeSyms(u: seq<Sym>): Option<seq<byte>> {
    if |u| == 0 then Some([])
    else if |u| < 4 then None
    else if |u| == 4 then DecodeLast(u[0], u[1], u[2], u[3])
    else if FullQuantum(u) then
      match DecodeSyms(u[4..])
      case None => None
      case Some(rest) => Some(Join(u[0].value, u[1].value, u[2].value, u[3].value) + rest)
    else None
  }

  /** One unfolding of `EncodeSyms`: a full group in front of the rest. */
  lemma EncodeSymsCons(a: byte, b: byte, c: byte, rest: seq<byte>)
    ensures EncodeSyms([a, b, c] + rest) == Quantum(a, b, c) + EncodeSyms(rest)
  {
    var s := [a, b, c] + rest;
    assert s[3..] == rest;
  }

  /** Decoding the digits of some bytes gives the bytes back. */
  lemma {:induction false} DecodeEncodeSyms(s: seq<byte>)
    ensures DecodeSyms(EncodeSyms(s)) == Some(s)
    decreases |s|
  {
    if |s| == 1 {
      var v := Split(s[0], 0, 0);
      JoinSplit(s[0], 0, 0);
      assert v[1] % 16 == 0 && v[2] == 0 && v[3] == 0;
      assert Join(v[0], v[1], 0, 0)[..1] == [s[0]];
      assert s == [s[0]];
    } else if |s| == 2 {
      var v := Split(s[0], s[1], 0);
      JoinSplit(s[0], s[1], 0);
      assert v[2] % 4 == 0 && v[3] == 0;
      assert Join(v[0], v[1], v[2], 0)[..2] == [s[0], s[1]];
      assert s == [s[0], s[1]];
    } else if |s| >= 3 {
      var u := EncodeSyms(s);
      JoinSplit(s[0], s[1], s[2]);
      EncodeSymsCons(s[0], s[1], s[2], s[3..]);
      assert s == [s[0], s[1], s[2]] + s[3..];
      if |s| > 3 {
        DecodeEncodeSyms(s[3..]);
        assert u[4..] == EncodeSyms(s[3..]);
      } else {
        assert u == Quantum(s[0], s[1], s[2]);
        assert s == [s[0], s[1], s[2]];
      }
    }
  }

  /** The last quantum: whatever `DecodeLast` accepts is the encoding of what it returns. */
  lemma LastCanonical(w: Sym, x: Sym, y: Sym, z: Sym)
    requires DecodeLast(w, x, y, z).Some?
    ensures EncodeSyms(DecodeLast(w, x, y, z).value) == [w, x, y, z]
  {
    var s := DecodeLast(w, x, y, z).value;
    if y.Digit? && z.Digit? {
      SplitJoin(w.value, x.value, y.value, z.value);
      EncodeSymsCons(s[0], s[1], s[2], []);
      assert s == [s[0], s[1], s[2]] + [];
    } else if y.Digit? {
      var d := Join(w.value, x.value, y.value, 0);
      SplitJoin(w.value, x.value, y.value, 0);
      assert d[2] == 0;
    } else {
      var d := Join(w.value, x.value, 0, 0);
      SplitJoin(w.value, x.value, 0, 0);
      assert d[1] == 0 && d[2] == 0;
    }
  }

  /** A full quantum of digits in front of a canonical tail re-encodes to itself. */
  lemma QuantumThenTail(u: seq<Sym>, rest: seq<byte>)
    requires |u| >= 4 && FullQuantum(u)
    requires EncodeSyms(rest) == u[4..]
    ensures EncodeSyms(Join(u[0].value, u[1].value, u[2].value, u[3].value) + rest) == u
  {
    var g := Join(u[0].value, u[1].value, u[2].value, u[3].value);
    SplitJoin(u[0].value, u[1].value, u[2].value, u[3].value);
    assert g == [g[0], g[1], g[2]];
    EncodeSymsCons(g[0], g[1], g[2], rest);
    assert u == u[..4] + u[4..];
  }

  /** Whatever `DecodeSyms` accepts is exactly the encoding of what it returns. */
  lemma {:induction false} EncodeDecodeSyms(u: seq<Sym>)
    requires DecodeSyms(u).Some?
    ensures EncodeSyms(DecodeSyms(u).value) == u
    decreases |u|
  {
    if |u| == 4 {
      LastCanonical(u[0], u[1], u[2], u[3]);
      assert u == [u[0], u[1], u[2], u[3]];
    } else if |u| > 4 {
      EncodeDecodeSyms(u[4..]);
      QuantumThenTail(u, DecodeSyms(u[4..]).value);
    }
  }

  /** Digits and padding sit where `PadCount` says for `n` encoded bytes: the last
      `PadCount(n)` symbols are padding and all others are digits. */
  predicate PaddedShape(u: seq<Sym>, n: nat) {
    forall i :: 0 <= i < |u| ==> (u[i].Digit? <==> i < |u| - PadCount(n))
  }

  /** The digit sequence of `s` has the padded shape. */
  lemma {:induction false} EncodeSymsShape(s: seq<byte>)
    ensures PaddedShape(EncodeSyms(s), |s|)
    decreases |s|
  {
    if |s| > 2 {
      EncodeSymsShape(s[3..]);
      var u := EncodeSyms(s);
      var tail := EncodeSyms(s[3..]);
      assert u == Quantum(s[0], s[1], s[2]) + tail;
      assert PadCount(|s|) == PadCount(|s[3..]|);
      forall i | 0 <= i < |u|
        ensures u[i].Digit? <==> i < |u| - PadCount(|s|)
      {
        if i >= 4 {
          assert u[i] == tail[i - 4];
        } else {
          assert u[i] == Quantum(s[0], s[1], s[2])[i];
        }
      }
    }
  }

  /* ---------------- Spelling symbols in ASCII ---------------- */

  /** Whether `c` is the ASCII code of one of the 64 alphabet symbols. */
  predicate IsSymbol(c: byte) {
    65 <= c <= 90 || 97 <= c <= 122 || 48 <= c <= 57 || c == 43 || c == 47
  }

  /** ASCII `=`, the padding character. */
  const Pad: byte := 61

  /** The ASCII code of the digit `i` in the alphabet of RFC 4648, table 1:
      `A`-`Z`, `a`-`z`, `0`-`9`, `+`, `/`. */
  function Symbol(i: sextet): (c: byte)
    ensures IsSymbol(c)
  {
    if i < 26 then 65 + i
    else if i < 52 then 97 + (i - 26)
    else if i < 62 then 48 + (i - 52)
    else if i == 62 then 43
    else 47
  }

  /** The digit an alphabet symbol stands for. */
  function Value(c: byte): (i: sextet)
    requires IsSymbol(c)
    ensures Symbol(i) == c
  {
    if 65 <= c <= 90 then c - 65
    else if 97 <= c <= 122 then c - 97 + 26
    else if 48 <= c <= 57 then c - 48 + 52
    else if c == 43 then 62
    else 63
  }

  /** `Value` undoes `Symbol`. */
  lemma ValueOfSymbol(i: sextet)
    ensures Value(Symbol(i)) == i
  {
  }

  /** One symbol as one ASCII byte. */
  function Spell(x: Sym): (c: byte)
    ensures IsSymbol(c) <==> x.Digit?
  {
    match x
    case Digit(v) => Symbol(v)
    case Padding => Pad
  }

  /** One ASCII byte read back as a symbol, if it is one. */
  function Read(c: byte): Option<Sym> {
    if IsSymbol(c) then Some(Digit(Value(c)))
    else if c == Pad then Some(Padding)
    else None
  }

  function SpellAll(u: seq<Sym>): (t: seq<byte>)
    ensures |t| == |u|
  {
    seq(|u|, i requires 0 <= i < |u| => Spell(u[i]))
  }

  function ReadAll(t: seq<byte>): (r: Option<seq<Sym>>)
    ensures r.Some? ==> |r.value| == |t|
  {
    if forall i :: 0 <= i < |t| ==> Read(t[i]).Some? then
      Some(seq(|t|, i requires 0 <= i < |t| && Read(t[i]).Some? => Read(t[i]).value))
    else None
  }

  /** Reading a spelled sequence gives the symbols back. */
  lemma ReadSpell(u: seq<Sym>)
    ensures ReadAll(SpellAll(u)) == Some(u)
  {
    var t := SpellAll(u);
    forall i | 0 <= i < |u|
      ensures Read(t[i]) == Some(u[i])
    {
      if u[i].Digit? {
        ValueOfSymbol(u[i].value);
      }
    }
    assert ReadAll(t).Some?;
    assert ReadAll(t).value == u;
  }

  /** Spelling what was read gives the bytes back. */
  lemma SpellRead(t: seq<byte>)
    requires ReadAll(t).Some?
    ensures SpellAll(ReadAll(t).value) == t
  {
  }

  /* ---------------- The codec ---------------- */

  /** `base64.b64encode`: the encoding as a byte string of ASCII codes. */
  function Encode(s: seq<byte>): (r: seq<byte>)
    ensures |r| == 4 * ((|s| + 2) / 3)
  {
    SpellAll(EncodeSyms(s))
  }

  /** A strict decoder: only the exact texts `Encode` produces are accepted. */
  function Decode(t: seq<byte>): Option<seq<byte>> {
    match ReadAll(t)
    case None => None
    case Some(u) => DecodeSyms(u)
  }

  /** Decoding an encoding gives back exactly the encoded bytes. */
  lemma DecodeEncode(s: seq<byte>)
    ensures Decode(Encode(s)) == Some(s)
  {
    ReadSpell(EncodeSyms(s));
    DecodeEncodeSyms(s);
  }

  /** Whatever the decoder accepts is exactly the encoding of what it returns, so the
      encoder is a bijection onto the texts `Decode` accepts. */
  lemma EncodeDecode(t: seq<byte>)
    requires Decode(t).Some?
    ensures Encode(Decode(t).value) == t
  {
    var u := ReadAll(t).value;
    EncodeDecodeSyms(u);
    SpellRead(t);
  }

  /** Every byte of an encoding is an alphabet symbol except the trailing padding, which
      is `=` and has the length `PadCount` gives. */
  lemma EncodeAlphabet(s: seq<byte>)
    ensures var r := Encode(s);
      forall i :: 0 <= i < |r| ==> (IsSymbol(r[i]) <==> i < |r| - PadCount(|s|))
    ensures var r := Encode(s);
      forall i :: |r| - PadCount(|s|) <= i < |r| ==> r[i] == Pad
  {
    EncodeSymsShape(s);
    var u := EncodeSyms(s);
    var r := Encode(s);
    forall i | 0 <= i < |r|
      ensures IsSymbol(r[i]) <==> u[i].Digit?
      ensures u[i].Padding? ==> r[i] == Pad
    {
      assert r[i] == Spell(u[i]);
    }
  }

  /** No byte of an encoding is ASCII whitespace, so `.strip()` leaves it as it is. */
  lemma EncodeHasNoSpace(s: seq<byte>)
    ensures forall i :: 0 <= i < |Encode(s)| ==> !IsAsciiSpace(Encode(s)[i])
    ensures Strip(Encode(s)) == Encode(s)
  {
    EncodeAlphabet(s);
  }

  /** The first test vectors of section 10 of RFC 4648: "f" is "Zg==", "fo" is "Zm8=" and
      "foo" is "Zm9v". The inputs are parameters so that the encoder is unfolded once per
      group rather than evaluated on literals. */
  lemma RfcVectors(f: seq<byte>, fo: seq<byte>, foo: seq<byte>)
    requires f == [102] && fo == [102, 111] && foo == [102, 111, 111]
    ensures Encode(f) == [90, 103, 61, 61]
    ensures Encode(fo) == [90, 109, 56, 61]
    ensures Encode(foo) == [90, 109, 57, 118]
  {
    var v1 := Split(f[0], 0, 0);
    assert EncodeSyms(f) == [Digit(v1[0]), Digit(v1[1]), Padding, Padding];
    assert v1[0] == 25 && v1[1] == 32;
    var v2 := Split(fo[0], fo[1], 0);
    assert EncodeSyms(fo) == [Digit(v2[0]), Digit(v2[1]), Digit(v2[2]), Padding];
    assert v2[0] == 25 && v2[1] == 38 && v2[2] == 60;
    var v3 := Split(foo[0], foo[1], foo[2]);
    assert foo[3..] == [];
    assert EncodeSyms(foo) == [Digit(v3[0]), Digit(v3[1]), Digit(v3[2]), Digit(v3[3])];
    assert v3[0] == 25 && v3[1] == 38 && v3[2] == 61 && v3[3] == 47;
  }
}

=== FILE: basic_auth.dfy ===
/** The `Basic` credential string of section 2 of RFC 7617, as `_basic_auth_str` builds it:
    `"Basic "` followed by the Base64 encoding of the latin-1 bytes of `user:password`. */
module BasicAuth {
  import opened Outcomes
  import opened Octets
  import Base64

  /** The scheme name and the single space that follows it. */
  const Scheme: string := "Basic "

  /** `_basic_auth_str(username, password)`. The credentials are joined with `:`, encoded
      as latin-1 (a `UnicodeEncodeError` for any character beyond U+00FF), Base64-encoded,
      stripped of surrounding ASCII whitespace and decoded as latin-1 again. */
  function BasicAuthStr(username: string, password: string): (r: Result<string, Error>)
    ensures r.Err? <==> !IsLatin1(username + ":" + password)
    ensures r.Err? ==> r.error == UnicodeEncodeError
    ensures r.Ok? ==> |r.value| == |Scheme| + 4 * ((|username| + 1 + |password| + 2) / 3)
    ensures r.Ok? ==> r.value[..|Scheme|] == Scheme
  {
    match Latin1Encode(username + ":" + password)
    case None => Err(UnicodeEncodeError)
    case Some(bytes) =>
      var text := Base64.Encode(bytes);
      Base64.EncodeHasNoSpace(bytes);
      assert |bytes| == |username| + 1 + |password|;
      assert |Latin1Decode(Strip(text))| == 4 * ((|username| + 1 + |password| + 2) / 3);
      Ok(Scheme + Latin1Decode(Strip(text)))
  }

  /** What a server does with a `Basic` header: check the scheme, read the rest as
      latin-1 bytes, Base64-decode them and read the result as latin-1 text. */
  function ParseBasic(header: string): Option<string> {
    if |header| < |Scheme| || header[..|Scheme|] != Scheme then None
    else match Latin1Encode(header[|Scheme|..])
      case None => None
      case Some(b) =>
        match Base64.Decode(b)
        case None => None
        case Some(raw) => Some(Latin1Decode(raw))
  }

  /** For a latin-1 credential the value is the scheme followed by the Base64 text itself:
      the `.strip()` in between removes nothing. */
  lemma BasicAuthStrText(username: string, password: string)
    requires IsLatin1(username + ":" + password)
    ensures BasicAuthStr(username, password).value
         == Scheme + Latin1Decode(Base64.Encode(Latin1Encode(username + ":" + password).value))
  {
    Base64.EncodeHasNoSpace(Latin1Encode(username + ":" + password).value);
  }

  /** Parsing the credential string gives back exactly `username:password`. */
  lemma BasicAuthRoundTrip(username: string, password: string)
    requires IsLatin1(username + ":" + password)
    ensures ParseBasic(BasicAuthStr(username, password).value) == Some(username + ":" + password)
  {
    var userPass := username + ":" + password;
    var bytes := Latin1Encode(userPass).value;
    var encoded := Base64.Encode(bytes);
    var header := BasicAuthStr(username, password).value;
    BasicAuthStrText(username, password);
    assert header[|Scheme|..] == Latin1Decode(encoded);
    Latin1DecodeEncode(encoded);
    Base64.DecodeEncode(bytes);
    Latin1EncodeDecode(userPass);
  }

  /** A character of the Base64 alphabet. */
  predicate IsAlphabetChar(c: char) {
    c as int < 256 && Base64.IsSymbol(c as int)
  }

  /** `text` is alphabet characters followed by exactly `pads` characters `=`. */
  predicate AlphabetThenPadding(text: string, pads: nat) {
    && pads <= |text|
    && (forall i :: 0 <= i < |text| ==> (IsAlphabetChar(text[i]) <==> i < |text| - pads))
    && (forall i :: |text| - pads <= i < |text| ==> text[i] == '=')
  }

  /** The Base64 text of some bytes, read as latin-1, is alphabet then padding. */
  lemma EncodedTextShape(bytes: seq<byte>, n: nat)
    requires n == |bytes|
    ensures AlphabetThenPadding(Latin1Decode(Base64.Encode(bytes)), Base64.PadCount(n))
  {
    var encoded := Base64.Encode(bytes);
    var text := Latin1Decode(encoded);
    Base64.EncodeAlphabet(bytes);
    forall i | 0 <= i < |text|
      ensures text[i] as int == encoded[i]
    {
    }
  }

  /** A header made of the scheme and the Base64 text of a latin-1 credential has the
      alphabet-then-padding shape after the scheme. */
  lemma HeaderShape(credential: string, header: string)
    requires IsLatin1(credential)
    requires header == Scheme + Latin1Decode(Base64.Encode(Latin1Encode(credential).value))
    ensures AlphabetThenPadding(header[|Scheme|..], Base64.PadCount(|credential|))
  {
    var bytes := Latin1Encode(credential).value;
    EncodedTextShape(bytes, |credential|);
    assert header[|Scheme|..] == Latin1Decode(Base64.Encode(bytes));
  }

  /** After `"Basic "` come only alphabet symbols and then the `=` padding, as many as
      `PadCount` gives for the length of `username:password`; the text therefore has
      nothing for `.strip()` to remove. */
  lemma BasicAuthAlphabet(username: string, password: string)
    requires IsLatin1(username + ":" + password)
    ensures AlphabetThenPadding(BasicAuthStr(username, password).value[|Scheme|..],
                                Base64.PadCount(|username + ":" + password|))
  {
    BasicAuthStrText(username, password);
    HeaderShape(username + ":" + password, BasicAuthStr(username, password).value);
  }

  /** Split `user:password` at its first colon, as a server reads the credential. */
  function SplitAtColon(s: string): (r: Option<(string, string)>)
    ensures r.Some? ==> r.value.0 + ":" + r.value.1 == s && ':' !in r.value.0
    ensures r.None? <==> ':' !in s
  {
    if |s| == 0 then None
    else if s[0] == ':' then Some(("", s[1..]))
    else match SplitAtColon(s[1..])
      case None => None
      case Some((user, pass)) => Some(([s[0]] + user, pass))
  }

  /** A user-id without a colon, as section 2 of RFC 7617 requires, is recovered together
      with the password from the joined credential. */
  lemma {:induction false} SplitJoined(username: string, password: string)
    requires ':' !in username
    ensures SplitAtColon(username + ":" + password) == Some((username, password))
    decreases |username|
  {
    var s := username + ":" + password;
    if |username| > 0 {
      assert s[1..] == username[1..] + ":" + password;
      SplitJoined(username[1..], password);
      assert [s[0]] + username[1..] == username;
    } else {
      assert s[1..] == password;
    }
  }

  /** A server that parses the header and splits it at the first colon recovers the very
      username and password `_basic_auth_str` was given, when the username has no colon. */
  lemma BasicAuthCredentials(username: string, password: string)
    requires IsLatin1(username + ":" + password) && ':' !in username
    ensures ParseBasic(BasicAuthStr(username, password).value).Some?
    ensures SplitAtColon(ParseBasic(BasicAuthStr(username, password).value).value)
         == Some((username, password))
  {
    BasicAuthRoundTrip(username, password);
    SplitJoined(username, password);
  }
}

=== FILE: octets.dfy ===
/** Bytes, the latin-1 text codec, and `bytes.strip()` on ASCII whitespace. */
module Octets {
  import opened Outcomes

  type byte = x: int | 0 <= x < 256

  /** A string every character of which has a latin-1 code (at most U+00FF). */
  predicate IsLatin1(s: string) {
    forall i :: 0 <= i < |s| ==> s[i] as int < 256
  }

  /** `str.encode('latin1')`: one byte per character, or a `UnicodeEncodeError`
      when some character lies beyond U+00FF. */
  function Latin1Encode(s: string): (r: Option<seq<byte>>)
    ensures r.Some? <==> IsLatin1(s)
    ensures r.Some? ==> |r.value| == |s|
    ensures r.Some? ==> forall i :: 0 <= i < |s| ==> r.value[i] == s[i] as int
  {
    if IsLatin1(s) then Some(seq(|s|, i requires 0 <= i < |s| => s[i] as int)) else None
  }

  /** `bytes.decode('latin1')`: total, each byte becomes the character with that code. */
  function Latin1Decode(b: seq<byte>): (s: string)
    ensures |s| == |b|
    ensures IsLatin1(s)
    ensures forall i :: 0 <= i < |b| ==> s[i] as int == b[i]
  {
    seq(|b|, i requires 0 <= i < |b| => b[i] as char)
  }

  /** Encoding after decoding gives the bytes back. */
  lemma Latin1DecodeEncode(b: seq<byte>)
    ensures Latin1Encode(Latin1Decode(b)) == Some(b)
  {
    var e := Latin1Encode(Latin1Decode(b));
    assert e.Some?;
    assert e.value == b;
  }

  /** Decoding after a successful encoding gives the string back. */
  lemma Latin1EncodeDecode(s: string)
    requires IsLatin1(s)
    ensures Latin1Decode(Latin1Encode(s).value) == s
  {
    var b := Latin1Encode(s).value;
    var t := Latin1Decode(b);
    forall i | 0 <= i < |s|
      ensures t[i] == s[i]
    {
      assert t[i] as int == s[i] as int;
    }
  }

  /** The bytes `bytes.strip()` removes: space, tab, LF, VT, FF and CR. */
  predicate IsAsciiSpace(c: byte) {
    c == 32 || 9 <= c <= 13
  }

  /** Leading ASCII whitespace removed. */
  function TrimStart(s: seq<byte>): (r: seq<byte>)
    ensures |r| <= |s| && r == s[|s| - |r|..]
    ensures forall i :: 0 <= i < |s| - |r| ==> IsAsciiSpace(s[i])
    ensures |r| > 0 ==> !IsAsciiSpace(r[0])
  {
    if |s| > 0 && IsAsciiSpace(s[0]) then TrimStart(s[1..]) else s
  }

  /** Trailing ASCII whitespace removed. */
  function TrimEnd(s: seq<byte>): (r: seq<byte>)
    ensures |r| <= |s| && r == s[..|r|]
    ensures forall i :: |r| <= i < |s| ==> IsAsciiSpace(s[i])
    ensures |r| > 0 ==> !IsAsciiSpace(r[|r| - 1])
  {
    if |s| > 0 && IsAsciiSpace(s[|s| - 1]) then TrimEnd(s[..|s| - 1]) else s
  }

  /** `r` is `s` with the first `start` bytes and some tail removed, all of them ASCII
      whitespace. */
  predicate TrimmedFrom(s: seq<byte>, r: seq<byte>, start: int) {
    && 0 <= start <= |s| - |r|
    && r == s[start..start + |r|]
    && (forall i :: 0 <= i < start ==> IsAsciiSpace(s[i]))
    && (forall i :: start + |r| <= i < |s| ==> IsAsciiSpace(s[i]))
  }

  /** `bytes.strip()` with no argument: a run of whitespace removed at each end, and no
      whitespace left at either end. */
  function Strip(s: seq<byte>): (r: seq<byte>)
    ensures exists start :: TrimmedFrom(s, r, start)
    ensures |r| > 0 ==> !IsAsciiSpace(r[0]) && !IsAsciiSpace(r[|r| - 1])
    ensures (forall i :: 0 <= i < |s| ==> !IsAsciiSpace(s[i])) ==> r == s
  {
    var t := TrimStart(s);
    var r := TrimEnd(t);
    assert TrimmedFrom(s, r, |s| - |t|);
    r
  }

  /** Whatever removes whitespace runs at both ends and leaves no whitespace at either end
      is `Strip`: the contract above fixes the result completely. */
  lemma StripUnique(s: seq<byte>, r: seq<byte>, start: int)
    requires TrimmedFrom(s, r, start)
    requires |r| > 0 ==> !IsAsciiSpace(r[0]) && !IsAsciiSpace(r[|r| - 1])
    ensures r == Strip(s)
  {
    var q := Strip(s);
    var a :| TrimmedFrom(s, q, a);
    if |r| > 0 && |q| > 0 {
      assert start == a;
      assert start + |r| == a + |q|;
    }
  }
}

=== FILE: outcomes.dfy ===
/** Option and Result values, and the exceptions the authentication layer can raise. */
module Outcomes {

  /** A value that may be absent; stands for Python's `None`. */
  datatype Option<+T> = None | Some(value: T)

  /** The outcome of an operation that either returns a value or raises. */
  datatype Result<+T, +E> = Ok(value: T) | Err(error: E)

  /** The Python exceptions raised by the authentication layer. */
  datatype Error =
    | UnsupportedAuthType(authType: string)  // `ValueError('Auth type not supported: ...')`
    | UnicodeEncodeError                     // a character outside latin-1 in a Basic credential
    | IndexError                             // `auth[0]` on an empty tuple or list
    | TypeError                              // `' '.join(['Bearer', None])`
}

=== FILE: redirects.dfy ===
/** The `auto_follow` loop of `TestApp.get`. The transport is not modelled; what it would
    answer is given as a finite chain of status codes: `chain[0]` for the first response
    and `chain[i + 1]` for the response that following response `i` yields. A chain that
    ends while the loop still wants to follow stands for the transport failing (or for a
    redirect loop that never ends), and gives no response. */
module Redirects {
  import opened Outcomes

  /** `is_redirect`: a status in [300, 400), the 3xx class of section 15.4 of RFC 9110,
      which is exactly the statuses whose `status // 100` is 3. */
  predicate IsRedirect(status: int): (r: bool)
    ensures r <==> status / 100 == 3
  {
    300 <= status < 400
  }

  /** The index of the first response at or after `from` that is not a redirect. */
  function FirstNonRedirect(chain: seq<int>, from: nat): (r: Option<nat>)
    requires from <= |chain|
    ensures r.Some? ==> from <= r.value < |chain| && !IsRedirect(chain[r.value])
    ensures r.Some? ==> forall j :: from <= j < r.value ==> IsRedirect(chain[j])
    ensures r.None? ==> forall j :: from <= j < |chain| ==> IsRedirect(chain[j])
    decreases |chain| - from
  {
    if from == |chain| then None
    else if !IsRedirect(chain[from]) then Some(from)
    else FirstNonRedirect(chain, from + 1)
  }

  /** The response `get` returns, by its index in the chain: the first one when
      `auto_follow` is off, else the first that is not a redirect, which is the one the
      recursive reference definition names. */
  method Get(chain: seq<int>, autoFollow: bool) returns (r: Option<nat>)
    ensures r.Some? ==> r.value < |chain|
    ensures !autoFollow ==> (r.Some? <==> |chain| > 0) && (r.Some? ==> r.value == 0)
    ensures autoFollow ==> r == FirstNonRedirect(chain, 0)
    ensures autoFollow && r.Some? ==>
      !IsRedirect(chain[r.value]) && forall j :: 0 <= j < r.value ==> IsRedirect(chain[j])
    ensures autoFollow && r.None? ==> forall j :: 0 <= j < |chain| ==> IsRedirect(chain[j])
  {
    if |chain| == 0 {
      return None;
    }
    var i := 0;
    while autoFollow && IsRedirect(chain[i])
      invariant 0 <= i < |chain|
      invariant !autoFollow ==> i == 0
      invariant autoFollow ==> FirstNonRedirect(chain, i) == FirstNonRedirect(chain, 0)
      decreases |chain| - i
    {
      if i + 1 == |chain| {
        return None;
      }
      i := i + 1;
    }
    return Some(i);
  }

  /** The `test_auto_follow` chain: two redirects and then a 200 end at the third response. */
  method AutoFollowThreeHops() returns (r: Option<nat>)
    ensures r == Some(2)
  {
    r := Get([302, 302, 200], true);
  }
}

=== FILE: test_client.dfy ===
/** The authentication state of `TestApp` and the headers each request method hands to
    the underlying test client. */
module TestClient {
  import opened Outcomes
  import opened Octets
  import opened BasicAuth
  import opened AuthHeaders

  /** The two fields `TestApp` adds: the stored credential and the stored auth type. */
  datatype Client = Client(auth: Auth, authType: string)

  /** `TestApp.__init__`: no credential, type `basic`. */
  function New(): (r: Client)
    ensures forall auth :: Truthy(EffectiveAuth(r, auth)) <==> Truthy(auth)
    ensures EffectiveType(r, None) == BasicType
  {
    Client(NoAuth, BasicType)
  }

  /** `authenticate(username, password)`: store the pair and switch to `basic`. */
  function Authenticate(c: Client, username: string, password: string): (r: Client)
    ensures forall auth :: !Truthy(auth) ==> EffectiveAuth(r, auth) == Items([username, password])
    ensures forall t: Option<string> :: (t.None? || t == Some("")) ==> EffectiveType(r, t) == BasicType
  {
    Client(Items([username, password]), BasicType)
  }

  /** `authenticate_with_token(token)`: store the token and switch to `jwt`. */
  function AuthenticateWithToken(c: Client, token: Auth): (r: Client)
    ensures forall auth :: !Truthy(auth) ==> EffectiveAuth(r, auth) == token
    ensures forall t: Option<string> :: (t.None? || t == Some("")) ==> EffectiveType(r, t) == JwtType
  {
    Client(token, JwtType)
  }

  /** `deauthenticate()`: drop the credential; the auth type stays as it was. */
  function Deauthenticate(c: Client): (r: Client)
    ensures forall auth :: Truthy(EffectiveAuth(r, auth)) <==> Truthy(auth)
    ensures forall t :: EffectiveType(r, t) == EffectiveType(c, t)
  {
    c.(auth := NoAuth)
  }

  /** `auth or self.auth`: the per-call credential if truthy, else the stored one. */
  function EffectiveAuth(c: Client, auth: Auth): (r: Auth)
    ensures Truthy(r) <==> Truthy(auth) || Truthy(c.auth)
    ensures Truthy(auth) ==> r == auth
    ensures !Truthy(auth) ==> r == c.auth
  {
    if Truthy(auth) then auth else c.auth
  }

  /** `auth_type or self.auth_type`: `None` and `''` fall back to the stored type. */
  function EffectiveType(c: Client, authType: Option<string>): (r: string)
    ensures r == "" <==> (authType.None? || authType == Some("")) && c.authType == ""
    ensures authType.Some? && authType.value != "" ==> r == authType.value
    ensures authType.None? || authType == Some("") ==> r == c.authType
  {
    if authType.Some? && authType.value != "" then authType.value else c.authType
  }

  /** `_build_headers(headers, auth, auth_type)`: add the effective credential, if it is
      truthy, with the effective type; otherwise hand the headers back untouched, `None`
      included. The client itself is not an output: the call never changes it. */
  function BuildHeaders(c: Client, headers: Option<Headers>, auth: Auth, authType: Option<string>)
    : (r: Result<Option<Headers>, Error>)
    ensures !Truthy(EffectiveAuth(c, auth)) ==> r == Ok(headers)
    ensures r.Ok? && Truthy(EffectiveAuth(c, auth)) ==>
      r.value.Some? && SameExceptAuthorization(r.value.value, Normalize(headers))
  {
    var credential := EffectiveAuth(c, auth);
    if Truthy(credential) then
      match AddAuth(credential, headers, EffectiveType(c, authType))
      case Err(e) => Err(e)
      case Ok(h) => Ok(Some(h))
    else Ok(headers)
  }

  /** A truthy per-call credential wins: the stored credential plays no part. */
  lemma PerCallAuthOverrides(c: Client, stored: Auth, headers: Option<Headers>, auth: Auth, authType: Option<string>)
    requires Truthy(auth)
    ensures BuildHeaders(c, headers, auth, authType)
         == BuildHeaders(c.(auth := stored), headers, auth, authType)
  {
  }

  /** A falsy per-call credential falls back to the stored one. */
  lemma StoredAuthFallback(c: Client, headers: Option<Headers>, auth: Auth, authType: Option<string>)
    requires !Truthy(auth)
    ensures BuildHeaders(c, headers, auth, authType) == BuildHeaders(c, headers, c.auth, authType)
  {
  }

  /** A non-empty per-call type wins over the stored type; `None` or `''` fall back to it. */
  lemma PerCallTypeOverrides(c: Client, stored: string, headers: Option<Headers>, auth: Auth, t: string)
    requires t != ""
    ensures BuildHeaders(c, headers, auth, Some(t))
         == BuildHeaders(c.(authType := stored), headers, auth, Some(t))
    ensures BuildHeaders(c, headers, auth, None) == BuildHeaders(c, headers, auth, Some(""))
    ensures BuildHeaders(c, headers, auth, None) == BuildHeaders(c, headers, auth, Some(c.authType))
  {
  }

  /** Building the headers twice gives what building them once gives, because the second
      build finds the header it would add already in place. */
  lemma BuildHeadersIdempotent(c: Client, headers: Option<Headers>, auth: Auth, authType: Option<string>)
    requires BuildHeaders(c, headers, auth, authType).Ok?
    ensures BuildHeaders(c, BuildHeaders(c, headers, auth, authType).value, auth, authType)
         == BuildHeaders(c, headers, auth, authType)
  {
    var credential := EffectiveAuth(c, auth);
    if Truthy(credential) {
      AddAuthIdempotent(credential, headers, EffectiveType(c, authType));
    }
  }

  /** The request methods of `TestApp`; `Generic` is `_gen_request` called directly, as
      the JSON helpers do. */
  datatype Verb = Get | Post | Put | Patch | Options | Delete | Generic

  /** The headers a request method of `TestApp` hands to the superclass. `put` builds
      them, then builds them again from the result; every other method builds them once. */
  function PassedHeaders(c: Client, verb: Verb, headers: Option<Headers>, auth: Auth, authType: Option<string>)
    : Result<Option<Headers>, Error>
  {
    match BuildHeaders(c, headers, auth, authType)
    case Err(e) => Err(e)
    case Ok(h) => if verb == Put then BuildHeaders(c, h, auth, authType) else Ok(h)
  }

  /** Every request method, `put` included, hands on the headers of a single build. */
  lemma PassedHeadersSingleBuild(c: Client, verb: Verb, headers: Option<Headers>, auth: Auth, authType: Option<string>)
    ensures PassedHeaders(c, verb, headers, auth, authType) == BuildHeaders(c, headers, auth, authType)
  {
    if BuildHeaders(c, headers, auth, authType).Ok? {
      BuildHeadersIdempotent(c, headers, auth, authType);
    }
  }

  /** Whether the superclass's method for `verb` goes back through `_gen_request`, which
      `TestApp` overrides and which builds the headers once more. In webtest, `post`, `put`,
      `patch` and `delete` do; `get` and `options` build their request themselves. */
  predicate Regenerates(verb: Verb) {
    verb == Post || verb == Put || verb == Patch || verb == Delete
  }

  /** The headers that reach the application, as the code is written: for the verbs that
      go through `_gen_request`, the override builds them once more without the per-call
      `auth` and `auth_type`, that is from the stored credential and type. */
  function SentHeadersAsWritten(c: Client, verb: Verb, headers: Option<Headers>, auth: Auth, authType: Option<string>)
    : Result<Option<Headers>, Error>
  {
    match PassedHeaders(c, verb, headers, auth, authType)
    case Err(e) => Err(e)
    case Ok(h) => if Regenerates(verb) then BuildHeaders(c, h, NoAuth, None) else Ok(h)
  }

  /** The headers that reach the application when the last build sees the same per-call
      `auth` and `auth_type` as the first: the behaviour `auth or self.auth` asks for, and
      the one the rest of this model uses. */
  function SentHeaders(c: Client, verb: Verb, headers: Option<Headers>, auth: Auth, authType: Option<string>)
    : (r: Result<Option<Headers>, Error>)
    ensures r == BuildHeaders(c, headers, auth, authType)
  {
    SentFromPassedSingleBuild(c, verb, headers, auth, authType);
    SentFromPassed(c, verb, headers, auth, authType)
  }

  /** Every request method sends the headers of a single build once the last build sees
      the request's own `auth` and `auth_type`: each later build finds its header in place. */
  lemma SentFromPassedSingleBuild(c: Client, verb: Verb, headers: Option<Headers>, auth: Auth, authType: Option<string>)
    ensures SentFromPassed(c, verb, headers, auth, authType) == BuildHeaders(c, headers, auth, authType)
  {
    PassedHeadersSingleBuild(c, verb, headers, auth, authType);
    if BuildHeaders(c, headers, auth, authType).Ok? {
      BuildHeadersIdempotent(c, headers, auth, authType);
    }
  }

  /** The last step of `SentHeaders`: for the verbs that go through `_gen_request`, one
      more build with the same per-call `auth` and `auth_type`. */
  function SentFromPassed(c: Client, verb: Verb, headers: Option<Headers>, auth: Auth, authType: Option<string>)
    : Result<Option<Headers>, Error>
  {
    match PassedHeaders(c, verb, headers, auth, authType)
    case Err(e) => Err(e)
    case Ok(h) => if Regenerates(verb) then BuildHeaders(c, h, auth, authType) else Ok(h)
  }

  /** With the correction, a truthy per-call credential wins for every request method:
      what is stored plays no part. */
  lemma SentPerCallAuthWins(c: Client, stored: Auth, verb: Verb, headers: Option<Headers>, auth: Auth,
                            authType: Option<string>)
    requires Truthy(auth)
    ensures SentHeaders(c, verb, headers, auth, authType)
         == SentHeaders(c.(auth := stored), verb, headers, auth, authType)
  {
    PerCallAuthOverrides(c, stored, headers, auth, authType);
  }

  /** With the correction, a non-empty per-call auth type wins for every request method:
      the stored type plays no part. */
  lemma SentPerCallTypeWins(c: Client, stored: string, verb: Verb, headers: Option<Headers>, auth: Auth, t: string)
    requires t != ""
    ensures SentHeaders(c, verb, headers, auth, Some(t))
         == SentHeaders(c.(authType := stored), verb, headers, auth, Some(t))
  {
    PerCallTypeOverrides(c, stored, headers, auth, t);
  }

  /** As written, a client logged in with `authenticate(u, p)` sends `u:p` on `post`,
      `put`, `patch` and `delete` whatever credential or type the request itself passes. */
  lemma AsWrittenStoredCredentialWins(c: Client, username: string, password: string, verb: Verb,
                                      headers: Option<Headers>, auth: Auth, authType: Option<string>)
    requires Regenerates(verb) && IsLatin1(username + ":" + password)
    requires PassedHeaders(Authenticate(c, username, password), verb, headers, auth, authType).Ok?
    ensures var r := SentHeadersAsWritten(Authenticate(c, username, password), verb, headers, auth, authType);
      && r.Ok? && r.value.Some? && AuthorizationKey in r.value.value
      && ParseBasic(r.value.value[AuthorizationKey]) == Some(username + ":" + password)
  {
    var c' := Authenticate(c, username, password);
    var h := PassedHeaders(c', verb, headers, auth, authType).value;
    AddAuthBasicPair(c'.auth, h);
    StoredPairRebuild(c', h);
  }

  /** A build without per-call credential or type uses the stored pair under `basic`. */
  lemma StoredPairRebuild(c: Client, headers: Option<Headers>)
    requires IsPair(c.auth) && c.authType == BasicType
    requires AddAuth(c.auth, headers, BasicType).Ok?
    ensures BuildHeaders(c, headers, NoAuth, None) == Ok(Some(AddAuth(c.auth, headers, BasicType).value))
  {
  }

  /** Where the two agree: for a client with no stored credential (the per-call requests
      of the test suite), and for requests that pass neither their own credential nor an
      auth type that differs from the stored one. */
  lemma AsWrittenAgrees(c: Client, verb: Verb, headers: Option<Headers>, auth: Auth, authType: Option<string>)
    requires !Truthy(c.auth) || (!Truthy(auth) && EffectiveType(c, authType) == c.authType)
    ensures SentHeadersAsWritten(c, verb, headers, auth, authType) == SentHeaders(c, verb, headers, auth, authType)
  {
    PassedHeadersSingleBuild(c, verb, headers, auth, authType);
    if BuildHeaders(c, headers, auth, authType).Ok? {
      BuildHeadersIdempotent(c, headers, auth, authType);
    }
  }

  /** With the correction, a per-call latin-1 pair under `basic` is what is sent. */
  lemma SentPerCallPair(c: Client, verb: Verb, headers: Option<Headers>, username: string, password: string)
    requires c.authType == BasicType && IsLatin1(username + ":" + password)
    ensures var r := SentHeaders(c, verb, headers, Items([username, password]), None);
      && r.Ok? && r.value.Some? && AuthorizationKey in r.value.value
      && ParseBasic(r.value.value[AuthorizationKey]) == Some(username + ":" + password)
  {
    var auth := Items([username, password]);
    AddAuthBasicPair(auth, headers);
    assert BuildHeaders(c, headers, auth, None) == Ok(Some(AddAuth(auth, headers, BasicType).value));
  }

  /** The discrepancy for every input of its kind: once logged in as `u:p`, a `post`,
      `put`, `patch` or `delete` with another pair `u2:p2` sends `u:p` as written but
      `u2:p2` once corrected. */
  lemma AsWrittenIgnoresPerCallPair(username: string, password: string, u2: string, p2: string,
                                    verb: Verb, headers: Option<Headers>)
    requires Regenerates(verb)
    requires IsLatin1(username + ":" + password) && IsLatin1(u2 + ":" + p2)
    ensures var c := Authenticate(New(), username, password);
      var r := SentHeadersAsWritten(c, verb, headers, Items([u2, p2]), None);
      && r.Ok? && r.value.Some? && AuthorizationKey in r.value.value
      && ParseBasic(r.value.value[AuthorizationKey]) == Some(username + ":" + password)
    ensures var c := Authenticate(New(), username, password);
      var r := SentHeaders(c, verb, headers, Items([u2, p2]), None);
      && r.Ok? && r.value.Some? && AuthorizationKey in r.value.value
      && ParseBasic(r.value.value[AuthorizationKey]) == Some(u2 + ":" + p2)
  {
    var c := Authenticate(New(), username, password);
    SentPerCallPair(c, verb, headers, u2, p2);
    PassedHeadersSingleBuild(c, verb, headers, Items([u2, p2]), None);
    AsWrittenStoredCredentialWins(New(), username, password, verb, headers, Items([u2, p2]), None);
  }

  /** The input that shows it: logged in as `admin:secret`, a `post` that passes
      `auth=('no', 'go')` sends `admin:secret` as written, and `no:go` once corrected. */
  lemma AsWrittenPostIgnoresPerCallAuth()
    ensures var c := Authenticate(New(), "admin", "secret");
      var r := SentHeadersAsWritten(c, Post, None, Items(["no", "go"]), None);
      && r.Ok? && r.value.Some? && AuthorizationKey in r.value.value
      && ParseBasic(r.value.value[AuthorizationKey]) == Some("admin:secret")
    ensures var c := Authenticate(New(), "admin", "secret");
      var r := SentHeaders(c, Post, None, Items(["no", "go"]), None);
      && r.Ok? && r.value.Some? && AuthorizationKey in r.value.value
      && ParseBasic(r.value.value[AuthorizationKey]) == Some("no:go")
  {
    assert "admin" + ":" + "secret" == "admin:secret";
    assert "no" + ":" + "go" == "no:go";
    AsWrittenIgnoresPerCallPair("admin", "secret", "no", "go", Post, None);
  }

  /** An unsupported auth type raises only when there is a credential to add: with a
      falsy effective credential `_add_auth` is never called, and the request goes out
      with its headers unchanged. This holds for every request method, as written. */
  lemma UnsupportedTypeRequest(c: Client, verb: Verb, headers: Option<Headers>, auth: Auth, authType: Option<string>)
    requires EffectiveType(c, authType) != BasicType && EffectiveType(c, authType) != JwtType
    ensures SentHeadersAsWritten(c, verb, headers, auth, authType).Err? <==> Truthy(EffectiveAuth(c, auth))
    ensures Truthy(EffectiveAuth(c, auth)) ==>
      SentHeadersAsWritten(c, verb, headers, auth, authType) == Err(UnsupportedAuthType(EffectiveType(c, authType)))
    ensures !Truthy(EffectiveAuth(c, auth)) ==> SentHeadersAsWritten(c, verb, headers, auth, authType) == Ok(headers)
  {
    if !Truthy(EffectiveAuth(c, auth)) {
      AsWrittenAgrees(c, verb, headers, auth, authType);
    }
  }

  /** A new client sends no credential: without a per-call `auth`, headers pass through. */
  lemma NewClientSendsNoAuthorization(verb: Verb, headers: Option<Headers>, auth: Auth, authType: Option<string>)
    requires !Truthy(auth)
    ensures SentHeaders(New(), verb, headers, auth, authType) == Ok(headers)
  {
  }

  /** After `authenticate(u, p)`, a request without per-call `auth` carries a `Basic`
      header that reads back as `u:p`, or raises `UnicodeEncodeError` when `u:p` is not
      latin-1; nothing else in the headers changes. */
  lemma AuthenticatedRequest(c: Client, username: string, password: string, verb: Verb,
                             headers: Option<Headers>, auth: Auth)
    requires !Truthy(auth)
    ensures var r := SentHeaders(Authenticate(c, username, password), verb, headers, auth, None);
      if IsLatin1(username + ":" + password) then
        && r.Ok? && r.value.Some? && AuthorizationKey in r.value.value
        && ParseBasic(r.value.value[AuthorizationKey]) == Some(username + ":" + password)
        && SameExceptAuthorization(r.value.value, Normalize(headers))
      else r == Err(UnicodeEncodeError)
  {
    var c' := Authenticate(c, username, password);
    if IsLatin1(username + ":" + password) {
      AddAuthBasicPair(c'.auth, headers);
    } else {
      AddAuthBasicNotLatin1(c'.auth, headers);
    }
  }

  /** After `authenticate_with_token(t)` with a non-empty `t`, a request without per-call
      `auth` carries `Authorization: Bearer t`. */
  lemma TokenRequest(c: Client, token: string, verb: Verb, headers: Option<Headers>, auth: Auth)
    requires token != "" && !Truthy(auth)
    ensures SentHeaders(AuthenticateWithToken(c, Token(token)), verb, headers, auth, None)
         == Ok(Some(Normalize(headers)[AuthorizationKey := BearerPrefix + token]))
  {
  }

  /** An empty token is falsy, so `authenticate_with_token('')` sends no header at all. */
  lemma EmptyTokenSendsNothing(c: Client, verb: Verb, headers: Option<Headers>, auth: Auth, authType: Option<string>)
    requires !Truthy(auth)
    ensures SentHeaders(AuthenticateWithToken(c, Token("")), verb, headers, auth, authType) == Ok(headers)
  {
  }

  /** After `deauthenticate()`, a request without per-call `auth` adds no `Authorization`
      header: the headers come back exactly as given. */
  lemma DeauthenticatedRequest(c: Client, verb: Verb, headers: Option<Headers>, auth: Auth, authType: Option<string>)
    requires !Truthy(auth)
    ensures SentHeaders(Deauthenticate(c), verb, headers, auth, authType) == Ok(headers)
  {
  }

  /** `deauthenticate()` keeps the auth type, so after a token login and logout a per-call
      `(username, password)` pair without `auth_type` is sent as `Bearer username`. */
  lemma LogoutKeepsJwtType(c: Client, token: Auth, username: string, password: string, headers: Option<Headers>)
    ensures Deauthenticate(AuthenticateWithToken(c, token)).authType == JwtType
    ensures BuildHeaders(Deauthenticate(AuthenticateWithToken(c, token)), headers,
                         Items([username, password]), None)
         == Ok(Some(Normalize(headers)[AuthorizationKey := BearerPrefix + username]))
  {
  }

  /* ---------------- A test session ---------------- */

  /** One thing a test does with the client: one of the three mutators, or a request. */
  datatype Step =
    | Login(username: string, password: string)
    | LoginWithToken(token: Auth)
    | Logout
    | Send(verb: Verb, headers: Option<Headers>, auth: Auth, authType: Option<string>)

  /** Run the steps in order: the client after the last one, and the headers (or the
      error) of each request in turn, as the corrected `SentHeaders` gives them. */
  function Run(c: Client, steps: seq<Step>): (r: (Client, seq<Result<Option<Headers>, Error>>))
    ensures |r.1| == CountSends(steps)
    decreases |steps|
  {
    if |steps| == 0 then (c, [])
    else
      var step := steps[0];
      match step
      case Login(u, p) => Run(Authenticate(c, u, p), steps[1..])
      case LoginWithToken(t) => Run(AuthenticateWithToken(c, t), steps[1..])
      case Logout => Run(Deauthenticate(c), steps[1..])
      case Send(v, h, a, t) =>
        var (c', out) := Run(c, steps[1..]);
        (c', [SentHeaders(c, v, h, a, t)] + out)
  }

  /** The client after one step: requests leave it as it is. */
  function After(c: Client, step: Step): Client {
    match step
    case Login(u, p) => Authenticate(c, u, p)
    case LoginWithToken(t) => AuthenticateWithToken(c, t)
    case Logout => Deauthenticate(c)
    case Send(_, _, _, _) => c
  }

  /** The outcomes one step adds: one for a request, none for a mutator. */
  function StepOutput(c: Client, step: Step): seq<Result<Option<Headers>, Error>> {
    if step.Send? then [SentHeaders(c, step.verb, step.headers, step.auth, step.authType)] else []
  }

  /** A session is its first step followed by the rest, run from the client that step leaves. */
  lemma RunStep(c: Client, steps: seq<Step>)
    requires |steps| > 0
    ensures Run(c, steps).0 == Run(After(c, steps[0]), steps[1..]).0
    ensures Run(c, steps).1 == StepOutput(c, steps[0]) + Run(After(c, steps[0]), steps[1..]).1
  {
    if !steps[0].Send? {
      assert StepOutput(c, steps[0]) + Run(After(c, steps[0]), steps[1..]).1
          == Run(After(c, steps[0]), steps[1..]).1;
    }
  }

  /** A session split at any point: the second part runs from the client the first part
      leaves, and its outcomes follow those of the first part. */
  lemma {:induction false} RunAppend(c: Client, steps: seq<Step>, more: seq<Step>)
    ensures Run(c, steps + more).0 == Run(Run(c, steps).0, more).0
    ensures Run(c, steps + more).1 == Run(c, steps).1 + Run(Run(c, steps).0, more).1
    decreases |steps|
  {
    var all := steps + more;
    if |steps| == 0 {
      assert all == more;
    } else {
      assert all[0] == steps[0];
      assert all[1..] == steps[1..] + more;
      var c1 := After(c, steps[0]);
      var out := StepOutput(c, steps[0]);
      RunStep(c, all);
      RunStep(c, steps);
      RunAppend(c1, steps[1..], more);
      var rest := Run(Run(c1, steps[1..]).0, more).1;
      assert out + (Run(c1, steps[1..]).1 + rest) == (out + Run(c1, steps[1..]).1) + rest;
    }
  }

  /** The outcome of a session's last request is what `SentHeaders` gives from the client
      the steps before it leave. */
  lemma RunLastSend(c: Client, steps: seq<Step>, verb: Verb, headers: Option<Headers>, auth: Auth,
                    authType: Option<string>)
    ensures Run(c, steps + [Send(verb, headers, auth, authType)]).0 == Run(c, steps).0
    ensures Run(c, steps + [Send(verb, headers, auth, authType)]).1
         == Run(c, steps).1 + [SentHeaders(Run(c, steps).0, verb, headers, auth, authType)]
  {
    var last := [Send(verb, headers, auth, authType)];
    RunAppend(c, steps, last);
    assert last[1..] == [];
  }

  /** The mutator steps of a session, requests dropped. */
  function Mutators(steps: seq<Step>): (m: seq<Step>)
    ensures |m| <= |steps|
    ensures forall i :: 0 <= i < |m| ==> !m[i].Send?
  {
    if |steps| == 0 then []
    else if steps[0].Send? then Mutators(steps[1..])
    else [steps[0]] + Mutators(steps[1..])
  }

  /** The number of requests in a session. */
  function CountSends(steps: seq<Step>): nat {
    if |steps| == 0 then 0 else (if steps[0].Send? then 1 else 0) + CountSends(steps[1..])
  }

  /** Requests never change the client: the state after a session is the state after its
      mutators alone. */
  lemma {:induction false} RequestsDoNotChangeState(c: Client, steps: seq<Step>)
    ensures Run(c, steps).0 == Run(c, Mutators(steps)).0
    decreases |steps|
  {
    if |steps| > 0 {
      var step := steps[0];
      var m := Mutators(steps);
      match step
      case Login(u, p) =>
        RequestsDoNotChangeState(Authenticate(c, u, p), steps[1..]);
        assert m[1..] == Mutators(steps[1..]);
      case LoginWithToken(t) =>
        RequestsDoNotChangeState(AuthenticateWithToken(c, t), steps[1..]);
        assert m[1..] == Mutators(steps[1..]);
      case Logout =>
        RequestsDoNotChangeState(Deauthenticate(c), steps[1..]);
        assert m[1..] == Mutators(steps[1..]);
      case Send(v, h, a, t) =>
        RequestsDoNotChangeState(c, steps[1..]);
    }
  }

  /** A per-call credential does not persist: whatever a request passes, the session
      after it ends in the same state and sends the same headers as without it. */
  lemma PerCallAuthDoesNotPersist(c: Client, request: Step, rest: seq<Step>)
    requires request.Send?
    ensures Run(c, [request] + rest).0 == Run(c, rest).0
    ensures Run(c, [request] + rest).1[1..] == Run(c, rest).1
  {
    assert ([request] + rest)[1..] == rest;
  }

  /** A session of a login, a request, a logout and a request sends the first request
      from the logged-in client and the second from the logged-out one. */
  lemma LoginThenLogout(c: Client, username: string, password: string, first: Step, second: Step)
    requires first.Send? && second.Send?
    ensures var logged := Authenticate(c, username, password);
      Run(c, [Login(username, password), first, Logout, second]).1
      == [SentHeaders(logged, first.verb, first.headers, first.auth, first.authType),
          SentHeaders(Deauthenticate(logged), second.verb, second.headers, second.auth, second.authType)]
  {
    var steps := [Login(username, password), first, Logout, second];
    assert steps[1..] == [first, Logout, second];
    assert steps[1..][1..] == [Logout, second];
    assert steps[1..][1..][1..] == [second];
    var logged := Authenticate(c, username, password);
    var out := Run(Deauthenticate(logged), [second]).1;
    assert [second][1..] == [];
    assert out == [SentHeaders(Deauthenticate(logged), second.verb, second.headers, second.auth, second.authType)];
    assert Run(logged, [Logout, second]).1 == out;
  }

  /** Log in as `u:p`, request, log out, request: the first request carries a header
      that reads back as `u:p`, the second comes back with no headers at all. */
  lemma LoginRequestLogoutSession(username: string, password: string)
    requires IsLatin1(username + ":" + password)
    ensures var out := Run(New(), [Login(username, password), Send(Get, None, NoAuth, None),
                                   Logout, Send(Get, None, NoAuth, None)]).1;
      && |out| == 2
      && out[0].Ok? && out[0].value.Some? && AuthorizationKey in out[0].value.value
      && ParseBasic(out[0].value.value[AuthorizationKey]) == Some(username + ":" + password)
      && out[1] == Ok(None)
  {
    var request := Send(Get, None, NoAuth, None);
    LoginThenLogout(New(), username, password, request, request);
    AuthenticatedRequest(New(), username, password, Get, None, NoAuth);
    DeauthenticatedRequest(Authenticate(New(), username, password), Get, None, NoAuth, None);
  }

  /** The session of the `test_authorize` case, as `admin:secret`. */
  lemma AuthorizeSession()
    ensures var out := Run(New(), [Login("admin", "secret"), Send(Get, None, NoAuth, None),
                                   Logout, Send(Get, None, NoAuth, None)]).1;
      && |out| == 2
      && out[0].Ok? && out[0].value.Some? && AuthorizationKey in out[0].value.value
      && ParseBasic(out[0].value.value[AuthorizationKey]) == Some("admin:secret")
      && out[1] == Ok(None)
  {
    assert "admin" + ":" + "secret" == "admin:secret";
    LoginRequestLogoutSession("admin", "secret");
  }
}
